=== FILE: README.md ===
# Multi-agent delegation and domain gating, modelled in Dafny

This project models the core of the open-mannus-tutorial system. In that system a generalist agent (Manus) can hand a
sub-question to one of nine specialists through a delegation tool (`call_agent`), and an HTTP front end
serves the same agents directly. The model covers:

- the agent registries: the delegation tool's cache and the server's cache, both get-or-create
  maps from agent-type strings to live instances, with their release paths;
- the delegation tool: resolving the type, forwarding the query with optional context, wrapping the
  answer in provenance banners, and turning every exception into an error string;
- the HTTP endpoints' decisions: query validation, the default agent type, `"Error: ..."`
  answers, the list of agent types, and single or release-all cleanup without error isolation;
- the eight gated specialists: one length-capped completion call, a strip/upper/`== "YES"` verdict that
  fails open, a fixed refusal recorded in memory, and for four of them a fixed note appended to the
  answer;
- the generalist's `think` override: a browser-aware guidance when one of the last three messages
  calls the browser tool, restored afterwards only when the inherited `think` returns;
- `execute_tool`, which passes the parent's result through.

The language model's reply, the inherited reasoning loop's result, a specialist's `run` result, whether an
agent's constructor raises, which cleanups raise, the browser-aware guidance helper and the inherited `think` are all oracle values. Each
is passed in as an `Outcome<T>` (`Ok(value)` or `Raised(msg)`), except which cleanups raise: that is a
`failing: set<AgentType>` parameter naming the agents whose `cleanup` raises. So every branch of the code is
reachable in the model. Instances are identified by the value of a counter that is never reset, so "a new instance"
is a provable statement.

Files, one module each: `wrappers.dfy` (Option, Outcome), `text.dfy` (ASCII `strip`/`upper`),
`messages.dfy`, `agent_types.dfy`, `agent_registry.dfy`, `gate.dfy`, `specialists.dfy`,
`agent_call_tool.dfy`, `api_server.dfy`, `manus.dfy`, `delegation.dfy` (the tool calling a gated
specialist).

Two behaviours of the code are easy to miss, and the model follows them:

- the finance specialist appends no disclaimer: on a relevant query its `run` returns the reasoning
  loop's result as is (app/agent/finance_lead_agent.py:82-83), unlike the law specialist, which
  appends one (app/agent/law_lead_agent.py:93);
- the server's release-all has no per-agent error isolation (api_server.py:103-106): the first
  cleanup that raises aborts the loop, and that agent and every later one stay cached.

## Model

| member | source | states |
|---|---|---|
| AgentTypes.Name | api_server.py:30-49 | every wire name is a non-empty lower-case identifier of letters and underscores |
| AgentTypes.Parse | api_server.py:29-49 | a string is recognised as an agent type only if it is that type's exact wire name |
| AgentTypes.ParseName | api_server.py:30-49 | every one of the ten types is recognised by its own wire name (parse inverts naming) |
| AgentTypes.ParseIsName | api_server.py:29-51 | a string is recognised exactly when some agent type has it as its name |
| AgentRegistry.EmptyAfter | app/tool/agent_call_tool.py:131-132 | after clearing, the cache holds no entry and no insertion order |
| AgentRegistry.Insert | app/tool/agent_call_tool.py:97-115 | caching a new instance adds exactly that key, at the end of the insertion order, under an id no cached instance has; other entries are untouched |
| AgentRegistry.Without | api_server.py:99 | deleting a key from the insertion order removes exactly that key, keeps the order duplicate-free, and changes nothing when the key is absent |
| AgentRegistry.WithoutSplice | api_server.py:99 | deleting the key at position k of a duplicate-free order leaves the keys before it and the keys after it, each in their original relative order |
| AgentRegistry.Remove | api_server.py:99 | `del` removes exactly the named entry, leaving the other keys in their relative insertion order; every other entry keeps its instance; deleting an absent key changes nothing |
| AgentRegistry.GetOrCreate | app/tool/agent_call_tool.py:95-119 | a cached type yields its cached instance with the cache unchanged; an uncached one yields a new instance, distinct from all cached ones, which is cached before it is returned at the end of the insertion order; other keys are unaffected |
| AgentRegistry.GetOrCreateTwice | app/tool/agent_call_tool.py:97-119 | two lookups with no release in between return the same instance and the second changes nothing |
| AgentRegistry.GetOrBuild | app/tool/agent_call_tool.py:97-119 | the lookup succeeds exactly when the type is cached or its constructor returns; a raising constructor's exception propagates and nothing is cached; on success it is get-or-create |
| AgentRegistry.GetOrBuildTwice | app/tool/agent_call_tool.py:97-119 | once a lookup succeeded, the next one returns the same instance, changes nothing, and does not depend on the constructor |
| AgentRegistry.ReleaseThenGetIsFresh | api_server.py:95-100 | after an agent is released, the next lookup of its type builds an instance different from every instance the cache held |
| Text.IsSpace | app/agent/hr_lead_agent.py:154 | the ASCII whitespace `strip()` removes is exactly tab, line feed, vertical tab, form feed, carriage return, the separators 0x1C-0x1F and space |
| Text.UpperChar | app/agent/hr_lead_agent.py:154 | upper-casing maps each lower-case ASCII letter to its own capital and every other character to itself, so letters stay letters and whitespace stays whitespace |
| Text.SkipSpace | app/agent/hr_lead_agent.py:154 | the leading scan of `strip` stops at the first non-whitespace character, and everything it skipped is whitespace |
| Text.SkipSpaceBack | app/agent/hr_lead_agent.py:154 | the trailing scan of `strip` stops after the last non-whitespace character, and everything it skipped is whitespace |
| Text.Strip | app/agent/hr_lead_agent.py:154 | `strip()` returns a contiguous slice of its input with only whitespace outside it, and the slice neither starts nor ends with whitespace |
| Text.Upper | app/agent/hr_lead_agent.py:154 | `upper()` keeps the length and maps each character on its own, lower-case ASCII letters to upper case |
| Text.StripOfPadded | app/agent/hr_lead_agent.py:154 | strip is determined by its result: whitespace, a core with non-space ends, then whitespace, strips to exactly that core |
| Specialists.DomainCheck | app/agent/hr_lead_agent.py:101-107 | the domain-check template is the fixed head, the specialist's topic sentence, then the fixed tail ending in `User Query: `; the query slot is followed only by a line break |
| RelevanceGate.Fill | app/agent/hr_lead_agent.py:101-107 | the filled prompt is the template's text before the placeholder, the query verbatim, then the text after it |
| RelevanceGate.GateRequest | app/agent/hr_lead_agent.py:148-153 | the gate sends a single user message holding the filled prompt, capped at 10 tokens, at temperature 0.0 |
| RelevanceGate.IsRelevant | app/agent/hr_lead_agent.py:145-159 | a completion call that raises makes the gate answer "relevant" (fail-open) |
| RelevanceGate.UpperIsYes | app/agent/hr_lead_agent.py:154-156 | a core upper-cases to `YES` exactly when it is one of the eight case spellings of "yes" |
| RelevanceGate.RelevantIffPaddedYes | app/agent/hr_lead_agent.py:154-156 | a reply passes the gate exactly when it is a spelling of "yes" with only whitespace around it (both directions) |
| RelevanceGate.RelevantIsPaddedYes | app/agent/hr_lead_agent.py:154-156 | a passing reply is a padded spelling of "yes" |
| RelevanceGate.PaddedYesIsRelevant | app/agent/hr_lead_agent.py:154-156 | a padded spelling of "yes" passes |
| RelevanceGate.PaddedYesPasses | app/agent/hr_lead_agent.py:154-156 | `"YES"` and `" yes\n"` pass the gate |
| RelevanceGate.OtherRepliesRejected | app/agent/hr_lead_agent.py:154-156 | `"NO"`, `"YES."` and the empty reply are judged not relevant |
| Specialists.Postprocessed | app/agent/hr_lead_agent.py:138-142 | a raising loop's error passes through; a successful answer is kept as a prefix, followed by exactly the note when there is one |
| Specialists.SpecialistRun | app/agent/hr_lead_agent.py:120-142 | one gate call per run; on "not relevant" the refusal is returned, memory gains the request then the refusal, and the loop is never invoked; on "relevant" the loop gets the unmodified request and the specialist leaves memory alone |
| Specialists.HrLeadRun | app/agent/hr_lead_agent.py:120-142 | gated with the HR topic and refusal; a successful answer gets the HR compliance note appended; a loop error passes through |
| Specialists.MarketingLeadRun | app/agent/marketing_lead_agent.py:110-132 | gated with the marketing topic and refusal; a successful answer gets the marketing note |
| Specialists.SeoLeadRun | app/agent/seo_lead_agent.py:100-122 | gated with the SEO topic and refusal; a successful answer gets the SEO note |
| Specialists.LawLeadRun | app/agent/law_lead_agent.py:71-93 | gated with the law topic and refusal; a successful answer gets the legal disclaimer |
| Specialists.DataEngRun | app/agent/data_eng_agent.py:47-67 | gated with the data-engineering topic and refusal; on "relevant" the loop's outcome is returned as is |
| Specialists.FinanceLeadRun | app/agent/finance_lead_agent.py:65-83 | gated with the finance topic and refusal; on "relevant" the loop's outcome is returned with no disclaimer |
| Specialists.TechLeadRun | app/agent/tech_lead_agent.py:44-62 | gated with the tech-lead topic and refusal; on "relevant" the loop's outcome is returned as is |
| Specialists.ProductManagerRun | app/agent/product_manager_agent.py:44-62 | gated with the product topic and refusal; on "relevant" the loop's outcome is returned as is |
| Specialists.RefusalSkipsLoop | app/agent/hr_lead_agent.py:129-134 | on the refusal path the run is the same whatever the loop would have produced, and the loop is not invoked |
| Specialists.GateFailureRunsLoop | app/agent/data_eng_agent.py:83-86 | when the gate call raises, the request reaches the loop and a loop error reaches the caller unchanged |
| Specialists.NoteRoundTrip | app/agent/hr_lead_agent.py:141-142 | the note is appended by plain concatenation: cutting it off gives back the loop's answer |
| Specialists.FinanceScenarios | app/agent/finance_lead_agent.py:65-83 | a `YES` gate reply returns the loop's answer unchanged; a `NO` reply returns the finance refusal without running the loop |
| AgentCallTool.Dispatch | app/tool/agent_call_tool.py:97-117 | the tool constructs a type only for one of the nine delegable wire names, never for the generalist; its converse is DispatchName |
| AgentCallTool.Describe | app/tool/agent_call_tool.py:45-55 | every delegable type has a non-empty human-readable description that differs from its wire name |
| AgentCallTool.DescriptionOf | app/tool/agent_call_tool.py:61 | the name of a delegable type is described by that type's table entry; a string that names no delegable type is described as itself |
| AgentCallTool.DispatchName | app/tool/agent_call_tool.py:97-117 | the wire name of every delegable type is dispatched to that type |
| AgentCallTool.DispatchIsName | app/tool/agent_call_tool.py:97-117 | a string is dispatched exactly when it is the wire name of a delegable type; `manus` is not dispatched |
| AgentCallTool.GetAgent | app/tool/agent_call_tool.py:95-119 | the lookup succeeds exactly when the name is delegable and the type is cached or its constructor returns; any other string raises `Unknown agent type: <name>`, a raising constructor's exception propagates, and a failed lookup caches nothing |
| AgentCallTool.ForwardedQuery | app/tool/agent_call_tool.py:71 | the forwarded text always ends with the query; it is the query alone when the context is absent or empty, else the context, a blank line and `Query: ` before it |
| AgentCallTool.BannerRoundTrip | app/tool/agent_call_tool.py:86 | the banner is lossless: reading it back gives the answer, and any text that reads back as an answer is that answer's banner |
| AgentCallTool.Banner | app/tool/agent_call_tool.py:86 | the banner is the opening line naming the agent, the answer verbatim, then the closing line |
| AgentCallTool.ErrorText | app/tool/agent_call_tool.py:91 | the error string opens with `Error calling agent '` and ends with the exception's message |
| AgentCallTool.Call | app/tool/agent_call_tool.py:57-93 | an unknown type or a raising constructor comes back as the error string with no agent run and nothing cached; otherwise the agent is cached and given the forwarded text, and its answer is returned inside the banner and its exception as the error string |
| AgentCallTool.BannerOpening | app/tool/agent_call_tool.py:86 | a banner opens with `=== Results from ` |
| AgentCallTool.ErrorOpening | app/tool/agent_call_tool.py:91 | an error string opens with `Error calling agent '` |
| AgentCallTool.CallTextDistinguishesOutcome | app/tool/agent_call_tool.py:57-93 | the tool never raises, and its text opens with the banner exactly when the agent was obtained and returned; otherwise it opens with the error marker |
| AgentCallTool.CachedDespiteFailure | app/tool/agent_call_tool.py:68-79 | the instance is cached before the agent runs, so it stays cached when the run raises, and the next call reuses it without constructing again |
| AgentCallTool.ConstructionFailureCachesNothing | app/tool/agent_call_tool.py:68-93 | when an uncached agent's constructor raises, the tool returns the error string, runs nothing and caches nothing |
| AgentCallTool.Cleanup | app/tool/agent_call_tool.py:121-132 | every cached agent is cleaned once, in insertion order; a raising cleanup is logged and the rest still run; the cache ends empty, and every later lookup builds an instance distinct from all the cleaned ones |
| ApiServer.GetAgent | api_server.py:27-51 | the lookup succeeds exactly when the name is one of the ten types and it is cached or its constructor returns; any other string raises with the key, a raising constructor's exception propagates, and a failed lookup caches nothing; a successful lookup is get-or-create, so every other entry and the insertion order are kept and a new type is appended |
| ApiServer.GetAgentTwice | api_server.py:27-51 | once a lookup succeeded, the next lookup of that type returns the same instance, changes nothing, and does not depend on the constructor |
| ApiServer.RunAgent | api_server.py:53-63 | a failed lookup raises out of `run_agent` with no agent run; otherwise the agent runs on the query, and its exception becomes the answer `Error: <message>` |
| ApiServer.RunAgentRaisesOnlyOnLookup | api_server.py:53-63 | `run_agent` raises exactly when the type is unknown or an uncached agent's constructor raises; an agent's own failure is an answer |
| ApiServer.RequestedType | api_server.py:69 | a request naming an agent type uses that name; one without it uses the generalist's name |
| ApiServer.QueryAgent | api_server.py:66-78 | a missing or empty query is a 400 `No query provided` and nothing is served; otherwise the served answer is returned, and an escaping exception is a 500 |
| ApiServer.QueryDefaultsToManus | api_server.py:69 | a request without `agent_type` is served by the generalist's cached instance, whether it was already cached or is constructed now |
| ApiServer.ListedAgentsExact | api_server.py:81-84 | the listed types are exactly the ten `get_agent` can construct, each once |
| ApiServer.ReleaseAll | api_server.py:101-106 | release-all only deletes entries and never changes a surviving entry's instance |
| ApiServer.ReleaseAllCompletes | api_server.py:101-106 | release-all completes exactly when no cached agent's cleanup raises, and then every agent was cleaned in insertion order and the cache is empty |
| ApiServer.ReleaseAllStops | api_server.py:103-105 | when a cleanup raises, release-all stops at the first such agent in insertion order: earlier agents are deleted, and it and all later ones stay cached |
| ApiServer.CleanupAgents | api_server.py:87-106 | naming a cached agent cleans only that one: its cleanup raising is a 500 that leaves the cache as it was, and otherwise the entry is deleted as `del` does, so the other entries keep their instances and insertion order; without such a name everything is released, a 500 if release-all aborted |
| ApiServer.SingleTarget | api_server.py:95 | a single-agent cleanup is chosen exactly for the name of a cached agent (both directions) |
| ApiServer.SingleTargetCached | api_server.py:95-100 | the name of any cached agent selects that agent for single cleanup |
| ApiServer.CachedNameReleasesOnlyIt | api_server.py:95-100 | naming a cached agent whose cleanup returns deletes that entry only and reports it by name |
| ApiServer.UncachedNameReleasesAll | api_server.py:95-106 | naming an uncached or unknown agent releases everything, exactly as a request without a name |
| ApiServer.ReleaseAllThenFresh | api_server.py:101-106 | when no cleanup raises, release-all empties the cache and a later lookup builds a fresh instance |
| Manus.RecentWindow | app/agent/manus.py:50 | the window is the last three messages, or all of them when there are fewer |
| Manus.BrowserInUse | app/agent/manus.py:50-56 | the scan reports the browser as in use exactly when some message of the window carries a browser-tool call |
| Manus.Think | app/agent/manus.py:47-68 | without the browser the inherited `think` runs under the original guidance; with it, a raising helper propagates before the inherited `think`, and otherwise that `think` runs under the browser-aware guidance, which is restored only if it returns |
| Manus.ThinkRestoresOnReturn | app/agent/manus.py:63-68 | a `think` that returns leaves the guidance as it found it and returns the inherited decision |
| Manus.ThinkLeaksOverrideOnRaise | app/agent/manus.py:58-66 | the guidance outlives the step exactly when the browser was in use, the helper gave a different guidance and the inherited `think` raised |
| Manus.OldBrowserCallsIgnored | app/agent/manus.py:50 | messages older than the last three never influence the override |
| Manus.ExecuteTool | app/agent/manus.py:70-83 | the parent's result is returned unchanged for every tool name, `call_agent` included |
| Delegation.DelegateToSpecialist | app/tool/agent_call_tool.py:68-79 | the specialist runs exactly when it is cached or its constructor returns; then its single gate call is made on the forwarded text, and otherwise the constructor's exception is the tool's error string |
| Delegation.DelegatedBuildFailure | app/tool/agent_call_tool.py:68-93 | an uncached specialist whose constructor raises never sees the query; the tool returns the constructor's exception as its error string and caches nothing |
| Delegation.DelegatedRefusal | app/tool/agent_call_tool.py:79-88 | a delegated query the obtained specialist refuses comes back as its refusal inside the specialist's banner, with the loop not run |
| Delegation.DelegatedLoopFailure | app/tool/agent_call_tool.py:79-93 | a specialist whose loop raises yields the tool's error string, not an exception |
| Delegation.DelegatedAnswer | app/tool/agent_call_tool.py:79-88 | an accepted delegated query comes back as the specialist's post-processed answer inside its banner |

## Left out

- The language model, the inherited ReAct/tool-call loop and `super().cleanup()` are outside this model. Their results are oracle parameters. The loop's own memory appends are not modelled either.
- Logging (`logger.*`) is left out. It has no effect on results.
- Flask routing and JSON decoding are left out. The thread pool, per-request event loops and concurrent requests are left out, so races on the shared caches are too.
- A JSON `agent_type` of `null` is left out. The model only distinguishes present from absent, and absent becomes `"manus"`.
- Non-string `query` values are left out.
- ApiServer.GetAgent: the `KeyError` for an unknown type is modelled as a raise whose message is the key. Python's quoted `repr` form is not modelled.
- Which tool object owns the delegation tool's cache is not modelled. One cache value is threaded through the calls.
- An agent's constructor is an oracle that returns or raises. What it builds and its own side effects are not modelled.
- The `hasattr(agent, "cleanup")` test in the tool's cleanup is left out. Every agent type here defines `cleanup`.
- The system prompts and the domain-check prose are left out beyond what the gate sends. The topic sentences, refusals and notes are transcribed exactly.
- Text.Strip: covers ASCII whitespace only. Python's `strip()` also removes Unicode whitespace such as the no-break space U+00A0, which the model keeps.
- Text.Upper: covers ASCII case mapping only. Python's `upper()` also maps non-ASCII letters, for example `'ſ'.upper() == 'S'`, which the model leaves unchanged.
- RelevanceGate.RelevantIffPaddedYes: because of the two lines above, the model rejects two replies Python's gate accepts: `yeſ`, and `YES` padded with no-break spaces.
- `BrowserUseTool` is not part of this model. Its registered name is taken to be `browser_use`.
- The browser-aware guidance helper is not part of this model.
- The MCP agent's internals and the generalist's `run` are left out. The generalist's `run` only logs around the inherited loop.
- The generalist's nested cleanup chain (browser helper, then tools) is left out.
- The `run_*.py` scripts and the tests are not modelled.
- Manus.ExecuteTool: the contract states only the pass-through. The logging around a `call_agent` command is not modelled.

=== FILE: agent_call_tool.dfy ===
/** The delegation tool (`AgentCallTool`, exposed to the generalist as
    `call_agent`): it resolves an agent-type string against its own
    registry, forwards the query (prefixed with the context when there is
    one), and wraps the specialist's answer in provenance banners. Every
    exception is turned into an error string, so the tool never raises.

    The model threads one registry value through the calls; which tool
    object owns that registry is not modelled. What a constructor and the
    delegated agent's `run` return or raise are oracle values. */
module AgentCallTool {
  import opened Wrappers
  import opened Text
  import opened AgentTypes
  import opened AgentRegistry

  /** `_agent_descriptions`: the human-readable name of each delegable
      type. */
  function Describe(t: AgentType): (desc: string)
    requires Delegable(t)
    ensures desc != [] && desc != Name(t)
  {
    match t
    case Mcp => "Browser Automation Specialist"
    case DataEng => "Data Engineering Expert"
    case ProductManager => "Product Management Specialist"
    case TechLead => "Technical Architecture Expert"
    case FinanceLead => "Financial Analysis Specialist"
    case LawLead => "Legal Specialist"
    case SeoLead => "SEO Expert"
    case MarketingLead => "Marketing Specialist"
    case HrLead => "Human Resources Specialist"
  }

  /** `_agent_descriptions.get(agent_type, agent_type)`. */
  function DescriptionOf(agentType: string): (desc: string)
    ensures forall t :: Delegable(t) && Name(t) == agentType ==> desc == Describe(t)
    ensures (forall t :: Delegable(t) ==> Name(t) != agentType) ==> desc == agentType
  {
    DispatchIsName(agentType);
    match Dispatch(agentType)
    case Some(t) => Describe(t)
    case None => agentType
  }

  /** The `if`/`elif` chain of `_get_agent`: the nine types other than the
      generalist. */
  function Dispatch(agentType: string): (t: Option<AgentType>)
    ensures t.Some? ==> Delegable(t.value) && Name(t.value) == agentType
  {
    match Parse(agentType)
    case Some(t) => if Delegable(t) then Some(t) else None
    case None => None
  }

  /** Every delegable type is constructed under its own wire name: the
      nine keys of the description table are exactly the names the tool
      dispatches on. */
  lemma DispatchName(t: AgentType)
    requires Delegable(t)
    ensures Dispatch(Name(t)) == Some(t)
  {
    ParseName(t);
  }

  /** A string is dispatched exactly when it is the name of a delegable
      type; the generalist's own name is not. */
  lemma DispatchIsName(agentType: string)
    ensures Dispatch(agentType).Some? <==> exists t :: Delegable(t) && Name(t) == agentType
    ensures Dispatch(Name(Manus)).None?
  {
    if exists t :: Delegable(t) && Name(t) == agentType {
      var t :| Delegable(t) && Name(t) == agentType;
      DispatchName(t);
    }
    ParseName(Manus);
  }

  /** `_get_agent`: the cached instance for a delegable type, constructed
      and cached on first use; `ValueError("Unknown agent type: ...")` for
      any other string. `construction` is what the type's constructor
      would do on a miss; a raising constructor caches nothing. */
  function GetAgent(r: Registry, agentType: string, construction: Outcome<()>): (res: (Outcome<InstanceId>, Registry))
    ensures res.0.Ok? <==> Dispatch(agentType).Some? && (Dispatch(agentType).value in r.ids || construction.Ok?)
    ensures res.0.Raised? ==> res.1 == r
    ensures Dispatch(agentType).None? ==> res.0 == Raised("Unknown agent type: " + agentType)
    ensures Dispatch(agentType).Some? && res.0.Raised? ==> res.0.msg == construction.msg
    ensures res.0.Ok? ==> (res.0.value, res.1) == GetOrCreate(r, Dispatch(agentType).value)
  {
    match Dispatch(agentType)
    case None => (Raised("Unknown agent type: " + agentType), r)
    case Some(t) => GetOrBuild(r, t, construction)
  }

  /** The text handed to the delegated agent: the query alone when the
      context is `None` or empty, otherwise the context, a blank line, the
      label `Query: ` and the query. */
  function ForwardedQuery(query: string, context: Option<string>): (full: string)
    ensures IsSuffix(query, full)
    ensures context.None? || context.value == [] ==> full == query
    ensures context.Some? && context.value != [] ==>
              && IsPrefix(context.value + "\n\nQuery: ", full)
              && |full| == |context.value| + 9 + |query|
  {
    match context
    case Some(c) => if c != [] then c + "\n\nQuery: " + query else query
    case None => query
  }

  /** The provenance banner around a delegated answer: the opening line
      naming the agent, the answer verbatim, the closing line. */
  function Banner(desc: string, agentType: string, result: string): (text: string)
    ensures IsPrefix(BannerHead(desc, agentType), text) && IsSuffix(BannerTail(desc), text)
    ensures |text| == |BannerHead(desc, agentType)| + |result| + |BannerTail(desc)|
    ensures text[|BannerHead(desc, agentType)|..|text| - |BannerTail(desc)|] == result
  {
    BannerHead(desc, agentType) + result + BannerTail(desc)
  }

  /** The opening and closing lines of a banner. */
  function BannerHead(desc: string, agentType: string): (head: string) {
    "=== Results from " + desc + " (" + agentType + ") ===\n\n"
  }

  function BannerTail(desc: string): (tail: string) {
    "\n\n=== End of " + desc + " Results ==="
  }

  /** Reading a banner back: the answer between the opening and closing
      lines, if `text` has both. */
  function Unbanner(desc: string, agentType: string, text: string): (result: Option<string>) {
    var head := BannerHead(desc, agentType);
    var tail := BannerTail(desc);
    if |head| + |tail| <= |text| && IsPrefix(head, text) && IsSuffix(tail, text)
    then Some(text[|head|..|text| - |tail|])
    else None
  }

  /** The banner is lossless: reading it back gives the answer, and any text
      that reads back as an answer is that answer's banner. */
  lemma BannerRoundTrip(desc: string, agentType: string, result: string, text: string)
    ensures Unbanner(desc, agentType, Banner(desc, agentType, result)) == Some(result)
    ensures Unbanner(desc, agentType, text) == Some(result) ==> Banner(desc, agentType, result) == text
  {
    var head, tail := BannerHead(desc, agentType), BannerTail(desc);
    var b := Banner(desc, agentType, result);
    assert b == head + result + tail;
    assert b[..|head|] == head;
    assert b[|b| - |tail|..] == tail;
    assert b[|head|..|b| - |tail|] == result;
    if Unbanner(desc, agentType, text) == Some(result) {
      assert text == text[..|head|] + text[|head|..|text| - |tail|] + text[|text| - |tail|..];
    }
  }

  /** The error string every exception inside `_run` becomes. */
  function ErrorText(agentType: string, msg: string): (text: string)
    ensures IsPrefix("Error calling agent '", text) && IsSuffix(msg, text)
  {
    "Error calling agent '" + agentType + "': " + msg
  }

  /** The outcome of one `_run`: the returned text, the registry after the
      call, and the text the delegated agent's `run` was invoked with (none
      when resolution failed). */
  datatype Delegation = Delegation(text: string, registry: Registry, forwarded: Option<string>)

  /** `_run(agent_type, query, context)`. Resolution failures (an unknown
      type or a raising constructor) come back as the error string with
      nothing forwarded; otherwise the agent, cached before it runs, gets
      the forwarded text, and its answer or exception is wrapped. */
  function Call(r: Registry, agentType: string, query: string, context: Option<string>,
                construction: Outcome<()>, agentResult: Outcome<string>): (d: Delegation)
    ensures Dispatch(agentType).None? ==>
              d == Delegation(ErrorText(agentType, "Unknown agent type: " + agentType), r, None)
    ensures var got := GetAgent(r, agentType, construction);
            got.0.Raised? ==> d == Delegation(ErrorText(agentType, got.0.msg), r, None)
    ensures var got := GetAgent(r, agentType, construction);
            got.0.Ok? ==>
              && d.registry == got.1
              && d.forwarded == Some(ForwardedQuery(query, context))
              && (agentResult.Ok? ==> d.text == Banner(Describe(Dispatch(agentType).value), agentType, agentResult.value))
              && (agentResult.Raised? ==> d.text == ErrorText(agentType, agentResult.msg))
  {
    var desc := DescriptionOf(agentType);
    var (got, r') := GetAgent(r, agentType, construction);
    match got
    case Raised(msg) => Delegation(ErrorText(agentType, msg), r', None)
    case Ok(_) =>
      var full := ForwardedQuery(query, context);
      match agentResult
      case Ok(result) => Delegation(Banner(desc, agentType, result), r', Some(full))
      case Raised(msg) => Delegation(ErrorText(agentType, msg), r', Some(full))
  }

  lemma BannerOpening(desc: string, agentType: string, result: string)
    ensures IsPrefix("=== Results from ", Banner(desc, agentType, result))
    ensures Banner(desc, agentType, result)[0] == '='
  {
    var head := BannerHead(desc, agentType);
    var b := Banner(desc, agentType, result);
    assert head == "=== Results from " + (desc + " (" + agentType + ") ===\n\n");
    assert b[..|head|] == head;
    assert b[..17] == head[..17];
  }

  lemma ErrorOpening(agentType: string, msg: string)
    ensures IsPrefix("Error calling agent '", ErrorText(agentType, msg))
    ensures ErrorText(agentType, msg)[0] == 'E'
  {
    assert ErrorText(agentType, msg) == "Error calling agent '" + (agentType + "': " + msg);
  }

  /** A caller can tell a delegated answer from a failure: the text opens
      with the results banner exactly when the agent was obtained and
      returned normally; otherwise it opens with the error marker. */
  lemma CallTextDistinguishesOutcome(r: Registry, agentType: string, query: string,
                                                        context: Option<string>, construction: Outcome<()>,
                                                        agentResult: Outcome<string>)
    ensures var d := Call(r, agentType, query, context, construction, agentResult);
            IsPrefix("=== Results from ", d.text) <==> GetAgent(r, agentType, construction).0.Ok? && agentResult.Ok?
    ensures var d := Call(r, agentType, query, context, construction, agentResult);
            IsPrefix("Error calling agent '", d.text) <==> !(GetAgent(r, agentType, construction).0.Ok? && agentResult.Ok?)
  {
    var d := Call(r, agentType, query, context, construction, agentResult);
    var got := GetAgent(r, agentType, construction).0;
    if got.Ok? && agentResult.Ok? {
      BannerOpening(Describe(Dispatch(agentType).value), agentType, agentResult.value);
      assert "Error calling agent '"[0] == 'E';
    } else {
      var msg := if got.Raised? then got.msg else agentResult.msg;
      assert d.text == ErrorText(agentType, msg);
      ErrorOpening(agentType, msg);
      assert "=== Results from "[0] == '=';
    }
  }

  /** The instance is cached before the delegated agent runs, so it stays
      cached whether the run returned or raised, and the next call for the
      same type reuses it without consulting the constructor. */
  lemma CachedDespiteFailure(r: Registry, agentType: string, query: string, context: Option<string>,
                             construction: Outcome<()>, agentResult: Outcome<string>, later: Outcome<()>)
    requires GetAgent(r, agentType, construction).0.Ok?
    ensures var t := Dispatch(agentType).value;
            var d := Call(r, agentType, query, context, construction, agentResult);
            && t in d.registry.ids
            && GetAgent(d.registry, agentType, later) == (Ok(d.registry.ids[t]), d.registry)
  {
  }

  /** A constructor that raises on a miss leaves the registry as it was, so
      the next call tries to construct the agent again. */
  lemma ConstructionFailureCachesNothing(r: Registry, agentType: string, query: string,
                                         context: Option<string>, msg: string, agentResult: Outcome<string>)
    requires Dispatch(agentType).Some? && Dispatch(agentType).value !in r.ids
    ensures Call(r, agentType, query, context, Raised(msg), agentResult)
            == Delegation(ErrorText(agentType, msg), r, None)
  {
  }

  /** `cleanup`: every cached agent's cleanup is called once, in insertion
      order; a cleanup that raises (one of `failing`) is logged and the rest
      still run; afterwards the registry is empty. The instance counter is
      kept, so every later lookup builds an instance distinct from all the
      cleaned ones. */
  method Cleanup(r: Registry, failing: set<AgentType>) returns (r': Registry, cleaned: seq<InstanceId>, logged: seq<AgentType>)
    ensures r'.ids == map[] && r'.order == [] && r'.nextId == r.nextId
    ensures |cleaned| == |r.order|
    ensures forall k :: 0 <= k < |r.order| ==> cleaned[k] == r.ids[r.order[k]]
    ensures forall id :: id in cleaned <==> id in r.ids.Values
    ensures forall t :: t in logged <==> t in r.ids && t in failing
    ensures forall t :: GetOrCreate(r', t).0 !in r.ids.Values
  {
    cleaned, logged := [], [];
    var i := 0;
    while i < |r.order|
      invariant 0 <= i <= |r.order|
      invariant |cleaned| == i
      invariant forall k :: 0 <= k < i ==> cleaned[k] == r.ids[r.order[k]]
      invariant forall t :: t in logged <==> t in r.order[..i] && t in failing
    {
      var t := r.order[i];
      if t in failing {
        logged := logged + [t];
      }
      cleaned := cleaned + [r.ids[t]];
      i := i + 1;
    }
    assert r.order[..i] == r.order;
    forall id | id in r.ids.Values
      ensures id in cleaned
    {
      var t :| t in r.ids && r.ids[t] == id;
      var k :| 0 <= k < |r.order| && r.order[k] == t;
      assert cleaned[k] == id;
    }
    r' := EmptyAfter(r.nextId);
  }
}

=== FILE: agent_registry.dfy ===
/** The get-or-create cache of agent instances that both the delegation
    tool and the API server keep.

    An instance is identified by the number it was given when it was
    constructed; the counter `nextId` is never reset, so an instance built
    after a release is always distinguishable from every earlier one. The
    insertion order of the Python dict is kept in `order`, because the
    server's release-all visits entries in that order and may stop midway. */
module AgentRegistry {
  import opened Wrappers
  import opened AgentTypes

  type InstanceId = nat

  datatype Cache = Cache(order: seq<AgentType>, ids: map<AgentType, InstanceId>, nextId: InstanceId)

  /** No type occurs twice in `order`. */
  ghost predicate NoDup(order: seq<AgentType>) {
    forall i, j :: 0 <= i < j < |order| ==> order[i] != order[j]
  }

  /** The representation invariant: `order` lists the cached types once
      each, every cached id was issued by the counter, and no two types
      share an instance. */
  ghost predicate Valid(c: Cache) {
    && NoDup(c.order)
    && (forall t :: t in c.ids <==> t in c.order)
    && (forall t :: t in c.ids ==> c.ids[t] < c.nextId)
    && (forall t, u :: t in c.ids && u in c.ids && t != u ==> c.ids[t] != c.ids[u])
  }

  type Registry = c: Cache | Valid(c) witness Cache([], map[], 0)

  /** A registry holding nothing that has issued `issued` instances so far. */
  function EmptyAfter(issued: InstanceId): (r: Registry)
    ensures r.ids == map[] && r.order == []
  {
    Cache([], map[], issued)
  }

  /** Constructing an instance of `t` and caching it under `t`, at the end
      of the insertion order. */
  function Insert(r: Registry, t: AgentType): (r': Registry)
    requires t !in r.ids
    ensures t in r'.ids && r'.ids[t] == r.nextId
    ensures r'.ids[t] !in r.ids.Values
    ensures forall u :: u != t ==> (u in r'.ids <==> u in r.ids)
    ensures forall u :: u in r.ids ==> r'.ids[u] == r.ids[u]
    ensures r'.order == r.order + [t] && r'.nextId == r.nextId + 1
  {
    Cache(r.order + [t], r.ids[t := r.nextId], r.nextId + 1)
  }

  /** `order` with `t` taken out, the others kept in their order. */
  function Without(order: seq<AgentType>, t: AgentType): (o: seq<AgentType>)
    ensures forall u :: u in o <==> u in order && u != t
    ensures NoDup(order) ==> NoDup(o)
    ensures t !in order ==> o == order
  {
    if order == [] then []
    else if order[0] == t then Without(order[1..], t)
    else
      var rest := Without(order[1..], t);
      assert NoDup(order) ==> order[0] !in order[1..] && NoDup(order[1..]);
      assert NoDup(order) ==> order[0] !in rest;
      [order[0]] + rest
  }

  /** Taking out the key at position `k` of a duplicate-free order leaves
      the keys before it and the keys after it, each in their order. */
  lemma {:induction false} WithoutSplice(order: seq<AgentType>, t: AgentType, k: nat)
    requires NoDup(order) && k < |order| && order[k] == t
    ensures Without(order, t) == order[..k] + order[k + 1..]
  {
    var tail := order[1..];
    if k == 0 {
      assert t !in tail;
    } else {
      assert NoDup(tail) && order[0] != t;
      WithoutSplice(tail, t, k - 1);
      assert order[..k] == [order[0]] + tail[..k - 1];
      assert order[k + 1..] == tail[k..];
    }
  }

  /** Deleting the entry of `t` (`del agents[t]`): its key leaves the
      insertion order, the others keep their relative order, and no other
      entry changes. */
  function Remove(r: Registry, t: AgentType): (r': Registry)
    ensures t !in r.ids ==> r' == r
    ensures forall k :: 0 <= k < |r.order| && r.order[k] == t ==> r'.order == r.order[..k] + r.order[k + 1..]
    ensures t !in r'.ids
    ensures forall u :: u != t ==> (u in r'.ids <==> u in r.ids)
    ensures forall u :: u in r'.ids ==> r'.ids[u] == r.ids[u]
    ensures r'.nextId == r.nextId
  {
    var c := Cache(Without(r.order, t), r.ids - {t}, r.nextId);
    assert Valid(c);
    assert forall k :: 0 <= k < |r.order| && r.order[k] == t ==> Without(r.order, t) == r.order[..k] + r.order[k + 1..] by {
      forall k | 0 <= k < |r.order| && r.order[k] == t
        ensures Without(r.order, t) == r.order[..k] + r.order[k + 1..]
      {
        WithoutSplice(r.order, t, k);
      }
    }
    c
  }

  /** Get-or-create: the cached instance of `t` when there is one (and the
      registry is left as it was), otherwise a freshly constructed instance,
      distinct from every instance the registry still holds, cached under
      `t` before it is handed out. */
  function GetOrCreate(r: Registry, t: AgentType): (res: (InstanceId, Registry))
    ensures t in res.1.ids && res.1.ids[t] == res.0
    ensures t in r.ids ==> res.0 == r.ids[t] && res.1 == r
    ensures t !in r.ids ==> res.0 >= r.nextId && res.0 !in r.ids.Values
    ensures forall u :: u != t ==> (u in res.1.ids <==> u in r.ids)
    ensures forall u :: u in r.ids ==> res.1.ids[u] == r.ids[u]
    ensures t !in r.ids ==> res.1.order == r.order + [t]
    ensures r.nextId <= res.1.nextId
  {
    if t in r.ids then (r.ids[t], r) else (r.nextId, Insert(r, t))
  }

  /** Get-or-create when the constructor itself may raise: `construction`
      is the outcome the constructor would have, consulted only on a miss.
      A constructor that raises leaves nothing cached and its exception
      escapes; otherwise this is `GetOrCreate`. */
  function GetOrBuild(r: Registry, t: AgentType, construction: Outcome<()>): (res: (Outcome<InstanceId>, Registry))
    ensures res.0.Ok? <==> t in r.ids || construction.Ok?
    ensures res.0.Raised? ==> res.0.msg == construction.msg && res.1 == r && t !in res.1.ids
    ensures res.0.Ok? ==> (res.0.value, res.1) == GetOrCreate(r, t)
  {
    if t in r.ids || construction.Ok? then
      var (id, r') := GetOrCreate(r, t);
      (Ok(id), r')
    else
      (Raised(construction.msg), r)
  }

  /** Once an instance is cached, the constructor is never consulted again:
      a second lookup returns the same instance whatever the constructor
      would do. */
  lemma GetOrBuildTwice(r: Registry, t: AgentType, first: Outcome<()>, second: Outcome<()>)
    requires GetOrBuild(r, t, first).0.Ok?
    ensures var (a, r1) := GetOrBuild(r, t, first);
            GetOrBuild(r1, t, second) == (a, r1)
  {
  }

  /** Referential stability: asking twice without an intervening release
      returns the same instance and leaves the registry as the first call
      left it. */
  lemma GetOrCreateTwice(r: Registry, t: AgentType)
    ensures var (a, r1) := GetOrCreate(r, t);
            var (b, r2) := GetOrCreate(r1, t);
            a == b && r2 == r1
  {
  }

  /** After a release the next lookup constructs a new instance, distinct
      from the one that was released. */
  lemma ReleaseThenGetIsFresh(r: Registry, t: AgentType)
    requires t in r.ids
    ensures GetOrCreate(Remove(r, t), t).0 != r.ids[t]
    ensures GetOrCreate(Remove(r, t), t).0 !in r.ids.Values
  {
    var r' := Remove(r, t);
    assert t !in r'.ids;
    assert GetOrCreate(r', t).0 == r'.nextId == r.nextId;
    assert forall u :: u in r.ids ==> r.ids[u] < r.nextId;
  }
}

=== FILE: agent_types.dfy ===
/** The closed set of agent types and the strings that name them.

    Both registries key their caches by these strings and dispatch on them
    with an `if`/`elif` chain; the model parses the string once into an
    `AgentType` and keys the caches by the parsed value. */
module AgentTypes {
  import opened Wrappers

  datatype AgentType =
    | Manus
    | Mcp
    | DataEng
    | ProductManager
    | TechLead
    | FinanceLead
    | LawLead
    | SeoLead
    | MarketingLead
    | HrLead

  /** The wire name of each agent type. */
  function Name(t: AgentType): (s: string)
    ensures s != []
    ensures forall i :: 0 <= i < |s| ==> 'a' <= s[i] <= 'z' || s[i] == '_'
  {
    match t
    case Manus => "manus"
    case Mcp => "mcp"
    case DataEng => "data_eng"
    case ProductManager => "product_manager"
    case TechLead => "tech_lead"
    case FinanceLead => "finance_lead"
    case LawLead => "law_lead"
    case SeoLead => "seo_lead"
    case MarketingLead => "marketing_lead"
    case HrLead => "hr_lead"
  }

  /** The `if`/`elif` chain of the registries: the agent type a string names,
      if any. */
  function Parse(s: string): (r: Option<AgentType>)
    ensures r.Some? ==> Name(r.value) == s
  {
    if s == "manus" then Some(Manus)
    else if s == "mcp" then Some(Mcp)
    else if s == "data_eng" then Some(DataEng)
    else if s == "product_manager" then Some(ProductManager)
    else if s == "tech_lead" then Some(TechLead)
    else if s == "finance_lead" then Some(FinanceLead)
    else if s == "law_lead" then Some(LawLead)
    else if s == "seo_lead" then Some(SeoLead)
    else if s == "marketing_lead" then Some(MarketingLead)
    else if s == "hr_lead" then Some(HrLead)
    else None
  }

  /** Parsing inverts naming: every agent type is recognised by its own name,
      and a string is recognised exactly when it is some type's name. */
  lemma ParseName(t: AgentType)
    ensures Parse(Name(t)) == Some(t)
  {
  }

  lemma ParseIsName(s: string)
    ensures Parse(s).Some? <==> exists t :: Name(t) == s
  {
    if exists t :: Name(t) == s {
      var t :| Name(t) == s;
      ParseName(t);
    }
  }

  /** The nine types the delegation tool can construct: every type except
      the generalist itself. */
  predicate Delegable(t: AgentType) {
    t != Manus
  }

  /** The eight gated specialists, each with a domain relevance check. */
  predicate IsSpecialist(t: AgentType) {
    t != Manus && t != Mcp
  }
}

=== FILE: api_server.dfy ===
/** The registry decisions of the HTTP front end (`api_server.py`): its own
    get-or-create cache over all ten agent types, the conversion of agent
    errors into `"Error: ..."` answers, the query endpoint's validation,
    the list of agent types, and the cleanup endpoint (release one cached
    agent, or release all in insertion order, stopping at the first
    cleanup that raises).

    Flask routing, JSON, the thread pool and the per-request event loops
    are not modelled. What an agent's constructor and its `run` return or
    raise, and which agents' `cleanup` raise, are oracle values. */
module ApiServer {
  import opened Wrappers
  import opened Text
  import opened AgentTypes
  import opened AgentRegistry

  /** The HTTP replies the endpoints produce: a 400 with an error message, a
      200 carrying a result or a status, or an uncaught exception, which
      Flask turns into a 500. */
  datatype Reply = BadRequest(error: string) | Answer(result: string) | Status(status: string) | ServerError

  /** `get_agent`: the cached instance for any of the ten types, created
      and cached on first use. Any other string falls through the `elif`
      chain, inserts nothing, and fails on the final `agents[agent_type]`
      with a `KeyError` carrying the key. `construction` is what the type's
      constructor would do on a miss; a raising constructor caches
      nothing. */
  function GetAgent(r: Registry, agentType: string, construction: Outcome<()>): (res: (Outcome<InstanceId>, Registry))
    ensures res.0.Ok? <==> Parse(agentType).Some? && (Parse(agentType).value in r.ids || construction.Ok?)
    ensures res.0.Raised? ==> res.1 == r
    ensures Parse(agentType).None? ==> res.0 == Raised(agentType)
    ensures Parse(agentType).Some? && res.0.Raised? ==> res.0.msg == construction.msg
    ensures res.0.Ok? ==>
              var t := Parse(agentType).value;
              && t in res.1.ids && res.1.ids[t] == res.0.value
              && (t in r.ids ==> res.0.value == r.ids[t] && res.1 == r)
              && (t !in r.ids ==> res.0.value !in r.ids.Values)
              && (forall u :: u != t ==> (u in res.1.ids <==> u in r.ids))
    ensures res.0.Ok? ==> (res.0.value, res.1) == GetOrCreate(r, Parse(agentType).value)
  {
    match Parse(agentType)
    case None => (Raised(agentType), r)
    case Some(t) => GetOrBuild(r, t, construction)
  }

  /** Referential stability of the server's cache: once an agent was
      obtained, the next request for it returns the same instance without
      consulting the constructor. */
  lemma GetAgentTwice(r: Registry, agentType: string, first: Outcome<()>, second: Outcome<()>)
    requires GetAgent(r, agentType, first).0.Ok?
    ensures var (a, r1) := GetAgent(r, agentType, first);
            GetAgent(r1, agentType, second) == (a, r1)
  {
  }

  /** What `run_agent` did: its outcome, the registry afterwards, and the
      instance and text the agent's `run` was invoked with, if any. */
  datatype Served = Served(result: Outcome<string>, registry: Registry, ran: Option<(InstanceId, string)>)

  /** `run_agent(agent_type, query)`: the lookup happens outside the `try`,
      so an unknown type or a raising constructor raises out of it; an
      exception from the agent's `run` becomes the answer
      `"Error: " + str(e)`. */
  function RunAgent(r: Registry, agentType: string, query: string, construction: Outcome<()>,
                    agentResult: Outcome<string>): (s: Served)
    ensures var got := GetAgent(r, agentType, construction);
            got.0.Raised? ==> s.result == Raised(got.0.msg) && s.registry == r && s.ran == None
    ensures var got := GetAgent(r, agentType, construction);
            got.0.Ok? ==>
              && s.result.Ok?
              && s.registry == got.1
              && s.ran == Some((got.0.value, query))
              && (agentResult.Ok? ==> s.result.value == agentResult.value)
              && (agentResult.Raised? ==> s.result.value == "Error: " + agentResult.msg)
  {
    var (got, r') := GetAgent(r, agentType, construction);
    match got
    case Raised(msg) => Served(Raised(msg), r', None)
    case Ok(id) =>
      var text := match agentResult
        case Ok(result) => result
        case Raised(msg) => "Error: " + msg;
      Served(Ok(text), r', Some((id, query)))
  }

  /** Only an unknown type or a raising constructor makes `run_agent`
      raise; an agent's own failure is an answer. */
  lemma RunAgentRaisesOnlyOnLookup(r: Registry, agentType: string, query: string,
                                                      construction: Outcome<()>, agentResult: Outcome<string>)
    ensures RunAgent(r, agentType, query, construction, agentResult).result.Raised?
            <==> Parse(agentType).None? || (Parse(agentType).value !in r.ids && construction.Raised?)
  {
    var got := GetAgent(r, agentType, construction);
    if got.0.Ok? {
      assert RunAgent(r, agentType, query, construction, agentResult).result.Ok?;
    }
  }

  /** The JSON body of a query request: `agent_type` and `query`, each
      possibly absent. */
  datatype QueryRequest = QueryRequest(agentType: Option<string>, query: Option<string>)

  /** The agent type a query request names, `"manus"` when absent. */
  function RequestedType(req: QueryRequest): (agentType: string)
    ensures req.agentType.Some? ==> agentType == req.agentType.value
    ensures req.agentType.None? ==> Parse(agentType) == Some(Manus)
  {
    req.agentType.GetOr("manus")
  }

  /** `query_agent`: a missing or empty query is answered with 400 before
      any agent is looked up or run, so nothing is served; otherwise the
      request is served by `run_agent`, whose escaping exception becomes a
      500. */
  function QueryAgent(r: Registry, req: QueryRequest, construction: Outcome<()>,
                      agentResult: Outcome<string>): (res: (Reply, Option<Served>))
    ensures req.query.None? || req.query.value == [] ==>
              res == (BadRequest("No query provided"), None)
    ensures req.query.Some? && req.query.value != [] ==>
              && res.1 == Some(RunAgent(r, RequestedType(req), req.query.value, construction, agentResult))
              && (res.1.value.result.Ok? ==> res.0 == Answer(res.1.value.result.value))
              && (res.1.value.result.Raised? ==> res.0 == ServerError)
  {
    match req.query
    case None => (BadRequest("No query provided"), None)
    case Some(q) =>
      if q == [] then (BadRequest("No query provided"), None)
      else
        var served := RunAgent(r, RequestedType(req), q, construction, agentResult);
        match served.result
        case Ok(text) => (Answer(text), Some(served))
        case Raised(_) => (ServerError, Some(served))
  }

  /** A request without `agent_type` goes to the generalist. */
  lemma QueryDefaultsToManus(r: Registry, query: string, construction: Outcome<()>, agentResult: Outcome<string>)
    requires query != [] && (Manus in r.ids || construction.Ok?)
    ensures var (_, s) := QueryAgent(r, QueryRequest(None, Some(query)), construction, agentResult);
            s.Some? && s.value.ran.Some? && Manus in s.value.registry.ids
            && s.value.registry.ids[Manus] == s.value.ran.value.0
  {
    assert Parse("manus") == Some(Manus);
  }

  /** `list_agents`. */
  const ListedAgents: seq<string> := ["manus", "mcp", "data_eng", "product_manager", "tech_lead",
                                      "finance_lead", "law_lead", "seo_lead", "marketing_lead", "hr_lead"]

  /** The listed types are exactly the ten `get_agent` can construct, each
      listed once. */
  lemma ListedAgentsExact(s: string)
    ensures s in ListedAgents <==> Parse(s).Some?
    ensures |ListedAgents| == 10
    ensures forall i, j :: 0 <= i < j < |ListedAgents| ==> ListedAgents[i] != ListedAgents[j]
  {
  }

  /** The release-all loop of `cleanup_agents`: the cached agents are
      visited in insertion order; each one's `cleanup` is called and its
      entry deleted, until a cleanup raises (the agents in `failing`), at
      which point the exception escapes and the remaining entries, the
      failing one included, stay cached. Returns whether it completed, the
      registry afterwards and the agents whose cleanup was called. */
  function ReleaseAll(r: Registry, failing: set<AgentType>): (res: (bool, Registry, seq<AgentType>))
    decreases |r.order|
    ensures forall t :: t in res.1.ids ==> t in r.ids && res.1.ids[t] == r.ids[t]
    ensures res.1.nextId == r.nextId
  {
    if r.order == [] then
      (true, r, [])
    else
      var t := r.order[0];
      if t in failing then
        (false, r, [t])
      else
        var (done, r', cleaned) := ReleaseAll(Remove(r, t), failing);
        (done, r', [t] + cleaned)
  }

  /** Release-all completes exactly when no cached agent's cleanup raises,
      and then every agent was cleaned up, in insertion order, and the
      registry is empty. */
  lemma ReleaseAllCompletes(r: Registry, failing: set<AgentType>)
    ensures var (done, r', cleaned) := ReleaseAll(r, failing);
            && (done <==> forall t :: t in r.order ==> t !in failing)
            && (done ==> r'.ids == map[] && cleaned == r.order)
  {
    ReleaseAllDone(r, failing);
    ReleaseAllEmpties(r, failing);
  }

  lemma {:induction false} ReleaseAllDone(r: Registry, failing: set<AgentType>)
    decreases |r.order|
    ensures ReleaseAll(r, failing).0 <==> forall t :: t in r.order ==> t !in failing
  {
    if r.order != [] && r.order[0] !in failing {
      var t := r.order[0];
      var r1 := Remove(r, t);
      RemoveFirst(r);
      ReleaseAllDone(r1, failing);
      assert ReleaseAll(r, failing).0 == ReleaseAll(r1, failing).0;
      assert forall u :: u in r.order <==> u == t || u in r1.order;
    }
  }

  lemma {:induction false} ReleaseAllEmpties(r: Registry, failing: set<AgentType>)
    decreases |r.order|
    ensures ReleaseAll(r, failing).0 ==> ReleaseAll(r, failing).1.ids == map[] && ReleaseAll(r, failing).2 == r.order
  {
    if r.order == [] {
      assert r.ids == map[];
    } else if r.order[0] !in failing {
      var t := r.order[0];
      var r1 := Remove(r, t);
      var (done, r', cleaned) := ReleaseAll(r1, failing);
      assert done ==> r'.ids == map[] && cleaned == r1.order by {
        ReleaseAllEmpties(r1, failing);
      }
      assert r.order == [t] + r1.order by {
        RemoveFirst(r);
      }
      assert ReleaseAll(r, failing) == (done, r', [t] + cleaned);
    }
  }

  /** `res` is what release-all gives when it stops at the agent with
      insertion index `|cleaned| - 1`: agents before it were cleaned up and
      deleted, its own cleanup was called and raised, and it and every
      later agent stay cached. */
  ghost predicate StoppedEarly(r: Registry, failing: set<AgentType>, cleaned: seq<AgentType>, r': Registry) {
    StoppedAt(r.order, failing, cleaned, r'.order)
  }

  /** `StoppedEarly` on the insertion orders alone. */
  ghost predicate StoppedAt(order: seq<AgentType>, failing: set<AgentType>, cleaned: seq<AgentType>, left: seq<AgentType>) {
    var k := |cleaned| - 1;
    && 0 <= k < |order|
    && cleaned == order[..k + 1]
    && order[k] in failing
    && (forall i :: 0 <= i < k ==> order[i] !in failing)
    && left == order[k..]
  }

  /** When some cleanup raises, release-all stops at the first such agent
      in insertion order. */
  lemma {:induction false} ReleaseAllStops(r: Registry, failing: set<AgentType>)
    decreases |r.order|
    ensures !ReleaseAll(r, failing).0 ==>
              StoppedEarly(r, failing, ReleaseAll(r, failing).2, ReleaseAll(r, failing).1)
  {
    if r.order == [] {
    } else if r.order[0] in failing {
      assert r.order[..1] == [r.order[0]];
      assert r.order[0..] == r.order;
    } else {
      var r1 := Remove(r, r.order[0]);
      ReleaseAllStops(r1, failing);
      if !ReleaseAll(r1, failing).0 {
        RemoveFirst(r);
        StoppedAtStep(r.order, failing, ReleaseAll(r1, failing).2, ReleaseAll(r1, failing).1.order);
      }
    }
  }

  /** Stopping early after the first entry is stopping early one position
      later in the whole order. */
  lemma StoppedAtStep(order: seq<AgentType>, failing: set<AgentType>, cleaned: seq<AgentType>, left: seq<AgentType>)
    requires order != [] && order[0] !in failing
    requires StoppedAt(order[1..], failing, cleaned, left)
    ensures StoppedAt(order, failing, [order[0]] + cleaned, left)
  {
    var t, rest := order[0], order[1..];
    assert order == [t] + rest;
    var k := |cleaned| - 1;
    ConsSlices(t, rest, k + 1);
    ConsSlices(t, rest, k);
    assert order[k + 1] == rest[k];
    forall i | 0 < i < k + 1
      ensures order[i] !in failing
    {
      assert order[i] == rest[i - 1];
    }
  }

  lemma ConsSlices<T>(x: T, s: seq<T>, n: nat)
    requires n <= |s|
    ensures ([x] + s)[..n + 1] == [x] + s[..n]
    ensures ([x] + s)[n + 1..] == s[n..]
  {
  }

  /** Deleting the first-inserted entry leaves the rest of the order. */
  lemma RemoveFirst(r: Registry)
    requires r.order != []
    ensures Remove(r, r.order[0]).order == r.order[1..]
    ensures r.order == [r.order[0]] + Remove(r, r.order[0]).order
  {
    assert r.order[0] !in r.order[1..];
    assert r.order == [r.order[0]] + r.order[1..];
  }

  /** `cleanup_agents(agent_type)`. With the name of a cached agent, that
      agent alone is cleaned up and deleted (a raising cleanup escapes and
      leaves it cached); with no name, an empty name, or a name that is not
      cached (known or not), every agent is released as `ReleaseAll`
      describes, with no per-agent error isolation. */
  function CleanupAgents(r: Registry, agentType: Option<string>, failing: set<AgentType>): (res: (Reply, Registry, seq<AgentType>))
    ensures SingleTarget(r, agentType).Some? ==>
              var t := SingleTarget(r, agentType).value;
              && res.2 == [t]
              && (t in failing ==> res.0 == ServerError && res.1 == r)
              && (t !in failing ==>
                    && res.0 == Status("Agent " + agentType.value + " cleaned up")
                    && res.1 == Remove(r, t)
                    && t !in res.1.ids
                    && (forall u :: u != t ==> (u in res.1.ids <==> u in r.ids))
                    && (forall u :: u in res.1.ids ==> res.1.ids[u] == r.ids[u]))
    ensures SingleTarget(r, agentType).None? ==>
              var (done, r', cleaned) := ReleaseAll(r, failing);
              && res.1 == r' && res.2 == cleaned
              && res.0 == (if done then Status("All agents cleaned up") else ServerError)
  {
    match SingleTarget(r, agentType)
    case Some(t) =>
      if t in failing then (ServerError, r, [t])
      else (Status("Agent " + agentType.value + " cleaned up"), Remove(r, t), [t])
    case None =>
      var (done, r', cleaned) := ReleaseAll(r, failing);
      (if done then Status("All agents cleaned up") else ServerError, r', cleaned)
  }

  /** `agent_type and agent_type in agents`: the cached agent a cleanup
      request names, if any. */
  function SingleTarget(r: Registry, agentType: Option<string>): (t: Option<AgentType>)
    ensures t.Some? ==> t.value in r.ids && agentType == Some(Name(t.value))
    ensures forall u :: u in r.ids && agentType == Some(Name(u)) ==> t == Some(u)
  {
    match agentType
    case None => None
    case Some(s) =>
      match Parse(s)
      case Some(t) => if s != [] && t in r.ids then Some(t) else None
      case None =>
        assert forall u :: Name(u) != s by {
          forall u ensures Name(u) != s {
            ParseName(u);
          }
        }
        None
  }

  /** The name of a cached agent always targets that agent alone. */
  lemma SingleTargetCached(r: Registry, t: AgentType)
    requires t in r.ids
    ensures SingleTarget(r, Some(Name(t))) == Some(t)
  {
  }

  /** Naming a cached agent whose cleanup returns cleans up and deletes
      that agent only, and reports it by the requested name. */
  lemma CachedNameReleasesOnlyIt(r: Registry, t: AgentType, failing: set<AgentType>)
    requires t in r.ids && t !in failing
    ensures var (reply, r', cleaned) := CleanupAgents(r, Some(Name(t)), failing);
            && reply == Status("Agent " + Name(t) + " cleaned up")
            && cleaned == [t]
            && r'.ids == r.ids - {t}
  {
    SingleTargetCached(r, t);
    var r' := CleanupAgents(r, Some(Name(t)), failing).1;
    assert r'.ids.Keys == (r.ids - {t}).Keys;
  }

  /** Naming an agent that is not cached, or an unknown type, releases
      everything, exactly as a request without a name does. */
  lemma UncachedNameReleasesAll(r: Registry, name: string, failing: set<AgentType>)
    requires Parse(name).None? || Parse(name).value !in r.ids
    ensures CleanupAgents(r, Some(name), failing) == CleanupAgents(r, None, failing)
  {
    assert SingleTarget(r, Some(name)).None?;
  }

  /** When no cleanup raises, release-all empties the registry, and a later
      request builds a fresh instance rather than reusing a released one. */
  lemma ReleaseAllThenFresh(r: Registry, t: AgentType)
    ensures var (done, r', _) := ReleaseAll(r, {});
            && done && r'.ids == map[]
            && GetOrCreate(r', t).0 !in r.ids.Values
  {
    ReleaseAllCompletes(r, {});
    var (done, r', _) := ReleaseAll(r, {});
    assert forall u :: u in r.ids ==> r.ids[u] < r.nextId == r'.nextId;
  }
}

=== FILE: delegation.dfy ===
/** The nested invocation: the generalist's delegation tool resolving a
    gated specialist and running that specialist's gate-then-loop `run` on
    the forwarded text. */
module Delegation {
  import opened Wrappers
  import opened Text
  import opened Messages
  import opened AgentTypes
  import opened AgentRegistry
  import opened RelevanceGate
  import opened Specialists
  import opened AgentCallTool

  /** Whether the specialist can be obtained: it is cached already, or its
      constructor returns. */
  predicate Obtainable(r: Registry, t: AgentType, construction: Outcome<()>) {
    t in r.ids || construction.Ok?
  }

  /** The delegation tool calling a gated specialist with descriptor `d`
      (for the eight classes, `HrLeadSpec` and its siblings): when the
      specialist can be obtained it runs on the forwarded text with its own
      memory, gate reply and loop outcome, and the tool wraps whatever it
      returned; otherwise nothing runs and the constructor's exception is
      wrapped. */
  function DelegateToSpecialist(r: Registry, d: Descriptor, query: string, context: Option<string>,
                                construction: Outcome<()>, memory: seq<Message>, gateReply: Outcome<string>,
                                loopResult: Outcome<string>): (res: (Delegation, Option<Run>))
    requires IsSpecialist(d.agentType)
    ensures res.1.Some? <==> Obtainable(r, d.agentType, construction)
    ensures res.1.Some? ==> res.1.value.completions == [GateRequest(d.domainCheck, ForwardedQuery(query, context))]
    ensures res.1.Some? ==> res.0.forwarded == Some(ForwardedQuery(query, context))
    ensures res.1.None? ==> res.0 == Delegation(ErrorText(Name(d.agentType), construction.msg), r, None)
  {
    var forwarded := ForwardedQuery(query, context);
    var run := SpecialistRun(d, forwarded, memory, gateReply, loopResult);
    DispatchName(d.agentType);
    var del := Call(r, Name(d.agentType), query, context, construction, run.result);
    if Obtainable(r, d.agentType, construction) then (del, Some(run)) else (del, None)
  }

  /** A specialist that is not cached and whose constructor raises never
      sees the query: the tool answers with the constructor's exception
      and caches nothing. */
  lemma DelegatedBuildFailure(r: Registry, d: Descriptor, query: string, context: Option<string>, msg: string,
                              memory: seq<Message>, gateReply: Outcome<string>, loopResult: Outcome<string>)
    requires IsSpecialist(d.agentType) && d.agentType !in r.ids
    ensures var (del, run) := DelegateToSpecialist(r, d, query, context, Raised(msg), memory, gateReply, loopResult);
            run.None? && del.text == ErrorText(Name(d.agentType), msg) && del.registry == r
  {
  }

  /** A delegated query the specialist judges out of its domain comes back
      as its refusal inside the specialist's banner, and its loop never
      runs. */
  lemma DelegatedRefusal(r: Registry, d: Descriptor, query: string, context: Option<string>, construction: Outcome<()>,
                         memory: seq<Message>, gateReply: Outcome<string>, loopResult: Outcome<string>)
    requires IsSpecialist(d.agentType) && Obtainable(r, d.agentType, construction) && !IsRelevant(gateReply)
    ensures var (del, run) := DelegateToSpecialist(r, d, query, context, construction, memory, gateReply, loopResult);
            del.text == Banner(Describe(d.agentType), Name(d.agentType), d.refusal) && run.value.loopInputs == []
  {
    DispatchName(d.agentType);
  }

  /** A specialist whose loop raises yields the tool's error string, not an
      exception. */
  lemma DelegatedLoopFailure(r: Registry, d: Descriptor, query: string, context: Option<string>, construction: Outcome<()>,
                             memory: seq<Message>, gateReply: Outcome<string>, msg: string)
    requires IsSpecialist(d.agentType) && Obtainable(r, d.agentType, construction) && IsRelevant(gateReply)
    ensures DelegateToSpecialist(r, d, query, context, construction, memory, gateReply, Raised(msg)).0.text
            == ErrorText(Name(d.agentType), msg)
  {
    DispatchName(d.agentType);
  }

  /** A delegated query the specialist accepts comes back as the
      specialist's post-processed answer inside its banner. */
  lemma DelegatedAnswer(r: Registry, d: Descriptor, query: string, context: Option<string>, construction: Outcome<()>,
                        memory: seq<Message>, gateReply: Outcome<string>, answer: string)
    requires IsSpecialist(d.agentType) && Obtainable(r, d.agentType, construction) && IsRelevant(gateReply)
    ensures DelegateToSpecialist(r, d, query, context, construction, memory, gateReply, Ok(answer)).0.text
            == Banner(Describe(d.agentType), Name(d.agentType), Postprocessed(d.post, Ok(answer)).value)
  {
    DispatchName(d.agentType);
  }
}

=== FILE: gate.dfy ===
/** The relevance gate every specialist runs before its reasoning loop
    (`_is_query_relevant`): one deterministic, length-capped completion
    call whose reply is stripped, upper-cased and compared with `YES`.
    Any exception from the call makes the gate answer "relevant". */
module RelevanceGate {
  import opened Wrappers
  import opened Text
  import opened Messages

  /** A domain-check prompt template with a single `{query}` placeholder:
      the text before the placeholder and the text after it. */
  datatype Template = Template(before: string, after: string)

  /** `template.format(query=query)`: the query is substituted verbatim. */
  function Fill(t: Template, query: string): (prompt: string)
    ensures IsPrefix(t.before, prompt) && IsSuffix(t.after, prompt)
    ensures |prompt| == |t.before| + |query| + |t.after|
    ensures prompt[|t.before|..|t.before| + |query|] == query
  {
    t.before + query + t.after
  }

  /** The output-length cap and the sampling temperature of the gate call. */
  const GateMaxTokens: nat := 10
  const GateTemperature: real := 0.0

  /** The single completion request the gate issues for `query`. */
  function GateRequest(t: Template, query: string): (req: CompletionRequest)
    ensures |req.messages| == 1
    ensures req.messages[0].role == User && req.messages[0].toolCalls == []
    ensures Fill(t, query) == req.messages[0].content
    ensures req.maxTokens == 10 && req.temperature == 0.0
  {
    CompletionRequest([UserMessage(Fill(t, query))], GateMaxTokens, GateTemperature)
  }

  /** The verdict on the completion call's outcome: a reply counts as
      relevant when `reply.strip().upper() == "YES"`; a call that raised
      counts as relevant (fail-open). */
  function IsRelevant(reply: Outcome<string>): (relevant: bool)
    ensures reply.Raised? ==> relevant
  {
    match reply
    case Ok(text) => Upper(Strip(text)) == "YES"
    case Raised(_) => true
  }

  /** The eight spellings of "yes" that upper-case to `YES`. */
  predicate IsYesSpelling(c: string) {
    && |c| == 3
    && (c[0] == 'y' || c[0] == 'Y')
    && (c[1] == 'e' || c[1] == 'E')
    && (c[2] == 's' || c[2] == 'S')
  }

  /** `text` is whitespace up to `i`, a spelling of "yes" from `i` to `j`,
      and whitespace from `j` on. */
  ghost predicate PaddedYes(text: string, i: int, j: int) {
    && 0 <= i <= j <= |text|
    && SpaceBetween(text, 0, i)
    && IsYesSpelling(text[i..j])
    && SpaceBetween(text, j, |text|)
  }

  lemma UpperIsYes(c: string)
    ensures Upper(c) == "YES" <==> IsYesSpelling(c)
  {
    if Upper(c) == "YES" {
      assert UpperChar(c[0]) == 'Y' && UpperChar(c[1]) == 'E' && UpperChar(c[2]) == 'S';
    }
    if IsYesSpelling(c) {
      assert Upper(c) == [UpperChar(c[0]), UpperChar(c[1]), UpperChar(c[2])];
    }
  }

  /** A reply is judged relevant exactly when it is a spelling of "yes"
      surrounded by nothing but whitespace; this characterises the verdict
      without reference to `Strip` or `Upper`. */
  lemma RelevantIffPaddedYes(text: string)
    ensures IsRelevant(Ok(text)) <==> exists i, j :: PaddedYes(text, i, j)
  {
    if IsRelevant(Ok(text)) {
      RelevantIsPaddedYes(text);
    }
    if exists i, j :: PaddedYes(text, i, j) {
      var i, j :| PaddedYes(text, i, j);
      PaddedYesIsRelevant(text, i, j);
    }
  }

  lemma RelevantIsPaddedYes(text: string)
    requires IsRelevant(Ok(text))
    ensures exists i, j :: PaddedYes(text, i, j)
  {
    var core := Strip(text);
    var i, j :| 0 <= i <= j <= |text| && StrippedAt(text, core, i, j);
    UpperIsYes(core);
    assert PaddedYes(text, i, j);
  }

  lemma PaddedYesIsRelevant(text: string, i: int, j: int)
    requires PaddedYes(text, i, j)
    ensures IsRelevant(Ok(text))
  {
    StripOfPadded(text, i, j);
    UpperIsYes(text[i..j]);
  }

  /** Concrete readings: a bare or padded "yes" in any case passes. */
  lemma PaddedYesPasses()
    ensures IsRelevant(Ok("YES")) && IsRelevant(Ok(" yes\n"))
  {
    PaddedYesIsRelevant("YES", 0, 3);
    PaddedYesIsRelevant(" yes\n", 1, 4);
  }

  /** "NO", an answer with trailing punctuation and an empty reply are
      judged irrelevant. */
  lemma OtherRepliesRejected()
    ensures !IsRelevant(Ok("NO")) && !IsRelevant(Ok("YES.")) && !IsRelevant(Ok(""))
  {
    StripOfPadded("NO", 0, 2);
    StripOfPadded("YES.", 0, 4);
    assert |Strip("")| == 0;
  }
}

=== FILE: manus.dfy ===
/** The generalist agent's one behaviour of its own (`Manus.think`): before
    each reasoning step it looks at the last three messages of its memory,
    and if any of them carries a call of the browser tool, it swaps its
    next-step guidance for a browser-aware variant for that step, then puts
    the original back. There is no `finally`: when the inherited `think`
    raises, the swapped guidance stays in place.

    The browser-aware guidance (`format_next_step_prompt`) and the inherited
    `think` are oracle outcomes. */
module Manus {
  import opened Wrappers
  import opened Messages

  /** The name `BrowserUseTool` registers under; that tool is not part of
      this model. */
  const BrowserToolName := "browser_use"

  /** `messages[-3:] if messages else []`: the last three messages, or all
      of them when there are fewer. */
  function RecentWindow(messages: seq<Message>): (w: seq<Message>)
    ensures |w| == if |messages| < 3 then |messages| else 3
    ensures w == messages[|messages| - |w|..]
  {
    if |messages| < 3 then messages else messages[|messages| - 3..]
  }

  /** The message carries a tool call of the browser tool. */
  predicate CallsBrowserTool(m: Message) {
    exists k :: 0 <= k < |m.toolCalls| && m.toolCalls[k].functionName == BrowserToolName
  }

  /** Some message of `window` carries a tool call of the browser tool. */
  predicate CallsBrowser(window: seq<Message>) {
    exists i :: 0 <= i < |window| && CallsBrowserTool(window[i])
  }

  /** The `any(...)` generator of `think`, as a scan over the window and
      each message's tool calls; messages without tool calls contribute
      nothing. */
  method BrowserInUse(messages: seq<Message>) returns (inUse: bool)
    ensures inUse <==> CallsBrowser(RecentWindow(messages))
  {
    var window := RecentWindow(messages);
    inUse := false;
    var i := 0;
    while i < |window| && !inUse
      invariant 0 <= i <= |window|
      invariant inUse ==> CallsBrowser(window)
      invariant !inUse ==> forall j :: 0 <= j < i ==> !CallsBrowserTool(window[j])
    {
      var calls := window[i].toolCalls;
      var k := 0;
      while k < |calls| && !inUse
        invariant 0 <= k <= |calls|
        invariant inUse ==> CallsBrowserTool(window[i])
        invariant !inUse ==> forall m :: 0 <= m < k ==> calls[m].functionName != BrowserToolName
      {
        inUse := calls[k].functionName == BrowserToolName;
        k := k + 1;
      }
      i := i + 1;
    }
  }

  /** What one `think` did: its outcome, the `next_step_prompt` afterwards,
      and the prompt in force when the inherited `think` was entered (none
      when the browser helper raised first). */
  datatype Thought = Thought(result: Outcome<bool>, nextStepPrompt: string, promptSeen: Option<string>)

  /** `Manus.think` on the agent's current guidance and memory. */
  function Think(nextStepPrompt: string, memory: seq<Message>,
                 browserPrompt: Outcome<string>, superThink: Outcome<bool>): (th: Thought)
    ensures !CallsBrowser(RecentWindow(memory)) ==>
              th == Thought(superThink, nextStepPrompt, Some(nextStepPrompt))
    ensures CallsBrowser(RecentWindow(memory)) && browserPrompt.Raised? ==>
              th == Thought(Raised(browserPrompt.msg), nextStepPrompt, None)
    ensures CallsBrowser(RecentWindow(memory)) && browserPrompt.Ok? ==>
              && th.result == superThink
              && th.promptSeen == Some(browserPrompt.value)
              && th.nextStepPrompt == (if superThink.Ok? then nextStepPrompt else browserPrompt.value)
  {
    if CallsBrowser(RecentWindow(memory)) then
      match browserPrompt
      case Raised(msg) => Thought(Raised(msg), nextStepPrompt, None)
      case Ok(browserAware) =>
        match superThink
        case Ok(decided) => Thought(Ok(decided), nextStepPrompt, Some(browserAware))
        case Raised(_) => Thought(superThink, browserAware, Some(browserAware))
    else
      Thought(superThink, nextStepPrompt, Some(nextStepPrompt))
  }

  /** A `think` that returns normally leaves the guidance as it found it,
      and returns the inherited `think`'s decision unchanged. */
  lemma ThinkRestoresOnReturn(nextStepPrompt: string, memory: seq<Message>,
                              browserPrompt: Outcome<string>, superThink: Outcome<bool>)
    ensures var th := Think(nextStepPrompt, memory, browserPrompt, superThink);
            th.result.Ok? ==> th.nextStepPrompt == nextStepPrompt && th.result == superThink
  {
  }

  /** The guidance outlives the step exactly when the browser was in use,
      the helper produced a different guidance, and the inherited `think`
      raised: the override is not scoped against exceptions. */
  lemma ThinkLeaksOverrideOnRaise(nextStepPrompt: string, memory: seq<Message>,
                                  browserPrompt: Outcome<string>, superThink: Outcome<bool>)
    ensures Think(nextStepPrompt, memory, browserPrompt, superThink).nextStepPrompt != nextStepPrompt
            <==> && CallsBrowser(RecentWindow(memory))
                 && browserPrompt.Ok? && browserPrompt.value != nextStepPrompt
                 && superThink.Raised?
  {
  }

  /** Only the last three messages matter: older browser calls do not
      trigger the override. */
  lemma OldBrowserCallsIgnored(old3: seq<Message>, recent: seq<Message>)
    requires |recent| == 3
    ensures RecentWindow(old3 + recent) == recent
  {
    assert (old3 + recent)[|old3 + recent| - 3..] == recent;
  }

  /** `Manus.execute_tool`: the parent's result is returned unchanged for
      every tool name (the extra statements for `call_agent` only log). */
  function ExecuteTool(toolName: string, parentResult: Outcome<string>): (r: Outcome<string>)
    ensures r == parentResult
  {
    parentResult
  }
}

=== FILE: messages.dfy ===
/** Conversation messages and the one completion request shape the core
    issues. Only the fields the core reads or writes are modelled. */
module Messages {

  datatype Role = User | Assistant | System | Tool

  /** A tool invocation recorded on an assistant message; the core only
      reads the invoked function's name. */
  datatype ToolCall = ToolCall(functionName: string)

  /** A message of an agent's memory. A Python message whose `tool_calls`
      is `None` is written with an empty `toolCalls`. */
  datatype Message = Message(role: Role, content: string, toolCalls: seq<ToolCall>)

  function UserMessage(content: string): (m: Message) {
    Message(User, content, [])
  }

  function AssistantMessage(content: string): (m: Message) {
    Message(Assistant, content, [])
  }

  /** The arguments of one `llm.chat_completion` call. The temperature is a
      mathematical real; `0.0` is the only value the core passes. */
  datatype CompletionRequest = CompletionRequest(messages: seq<Message>, maxTokens: nat, temperature: real)
}

=== FILE: specialists.dfy ===
/** The eight gated specialist agents (HR, marketing, SEO, law, data
    engineering, finance, tech lead, product manager).

    Their `run` methods are the same code with different constants: run the
    relevance gate on the request; when it says "not relevant", record the
    request and a fixed refusal in memory and return the refusal without
    entering the reasoning loop; otherwise hand the unmodified request to
    the inherited reasoning loop and return its result, with a fixed note
    appended for four of the eight. The model writes that code once,
    `SpecialistRun`, over a descriptor per agent. The gate reply and the
    loop result are oracle values. */
module Specialists {
  import opened Wrappers
  import opened Text
  import opened Messages
  import opened AgentTypes
  import opened RelevanceGate

  /** What a specialist does to a successful loop result. */
  datatype Postprocess = Unchanged | AppendNote(note: string)

  /** The constants that distinguish one specialist class from another. */
  datatype Descriptor = Descriptor(agentType: AgentType, refusal: string, domainCheck: Template, post: Postprocess)

  /** The outcome of one `run`: what it returned or raised, the memory as the
      specialist's own code leaves it (on the relevant path this is the
      memory the inherited loop starts from; the loop's own appends are not
      modelled), the completion requests the gate issued, and the inputs
      the reasoning loop was invoked with. */
  datatype Run = Run(result: Outcome<string>, memory: seq<Message>, completions: seq<CompletionRequest>, loopInputs: seq<string>)

  /** The fixed text of the domain-check template on either side of the
      topic sentence; the query slot comes right after the tail. */
  const DomainCheckHead := "\nAnalyze the following user query. Determine if it is primarily related to "
  const DomainCheckTail := "\n\nAnswer **only** with 'YES' or 'NO'.\n\nUser Query: "

  /** The domain-check template shared by the eight classes, with the topic
      sentence that differs between them: the topic sits between the fixed
      head and tail, and the query is the last thing before the final line
      break. */
  function DomainCheck(topic: string): (t: Template)
    ensures IsPrefix(DomainCheckHead, t.before) && IsSuffix(DomainCheckTail, t.before)
    ensures |t.before| == |DomainCheckHead| + |topic| + |DomainCheckTail|
    ensures t.before[|DomainCheckHead|..|t.before| - |DomainCheckTail|] == topic
    ensures t.after == "\n"
  {
    Template(DomainCheckHead + topic + DomainCheckTail, "\n")
  }

  const HrTopic := "Human Resources concepts, tools, or practices (e.g., recruitment, employee relations, compensation & benefits, HR operations, learning & development, organizational development, HR strategy, etc.)."
  const HrRefusal := "I specialize in Human Resources topics. This question seems outside my area of expertise."
  const HrNote := "\n\nNote: HR practices must comply with local labor laws and regulations. This response is for informational purposes only. Please consult with appropriate legal counsel or HR professionals for specific situations."

  const MarketingTopic := "Marketing concepts, tools, or practices (e.g., marketing strategy, digital marketing, performance marketing, analytics, customer experience, marketing operations, product marketing, etc.)."
  const MarketingRefusal := "I specialize in Marketing topics. This question seems outside my area of expertise."
  const MarketingNote := "\n\nNote: Marketing best practices and consumer behavior evolve constantly. Always test strategies and adapt them to your specific market and audience."

  const SeoTopic := "Search Engine Optimization (SEO) concepts, tools, or practices (e.g., technical SEO, on-page optimization, off-page SEO, content strategy, analytics, search algorithms, etc.)."
  const SeoRefusal := "I specialize in Search Engine Optimization (SEO) topics. This question seems outside my area of expertise."
  const SeoNote := "\n\nNote: SEO best practices and search engine algorithms evolve constantly. Always verify current guidelines and test strategies for your specific situation."

  const LawTopic := "Law and legal matters (e.g., corporate law, contracts, intellectual property, employment law, regulations, compliance, litigation, etc.)."
  const LawRefusal := "I specialize in Law and Legal topics. This question seems outside my area of expertise."
  const LawDisclaimer := "\n\nDisclaimer: This response is for informational purposes only and does not constitute legal advice. Please consult with a qualified legal professional for advice about your specific situation."

  const DataEngTopic := "Data Engineering concepts, tools, or practices (e.g., ETL, databases, data warehousing, data pipelines, SQL, Spark, Kafka, data modeling, cloud data services, Airflow, etc.)."
  const DataEngRefusal := "I specialize in Data Engineering topics. This question seems outside my area of expertise."

  const FinanceTopic := "Finance and financial management concepts, tools, or practices (e.g., financial analysis, corporate finance, investments, risk management, financial modeling, M&A, financial markets, accounting, budgeting, etc.)."
  const FinanceRefusal := "I specialize in Finance and Financial Management topics. This question seems outside my area of expertise."

  const TechLeadTopic := "Technical Leadership or deep technical software engineering concepts, tools, or practices (e.g., software architecture, system design, code quality, design patterns, API design, distributed systems, cloud infrastructure, technical decision-making, mentoring, etc.)."
  const TechLeadRefusal := "I specialize in Technical Leadership and deep Software Engineering topics. This question seems outside my area of expertise."

  const ProductTopic := "Product Management concepts, tools, or practices (e.g., product strategy, roadmaps, user stories, prioritization, market research, agile, KPIs, product lifecycle, etc.)."
  const ProductRefusal := "I specialize in Product Management topics. This question seems outside my area of expertise."

  /** The descriptors of the eight classes. HR, marketing, SEO and law
      append a note to a successful answer; the other four, finance
      included, return it unchanged. */
  const HrLeadSpec := Descriptor(HrLead, HrRefusal, DomainCheck(HrTopic), AppendNote(HrNote))
  const MarketingLeadSpec := Descriptor(MarketingLead, MarketingRefusal, DomainCheck(MarketingTopic), AppendNote(MarketingNote))
  const SeoLeadSpec := Descriptor(SeoLead, SeoRefusal, DomainCheck(SeoTopic), AppendNote(SeoNote))
  const LawLeadSpec := Descriptor(LawLead, LawRefusal, DomainCheck(LawTopic), AppendNote(LawDisclaimer))
  const DataEngSpec := Descriptor(DataEng, DataEngRefusal, DomainCheck(DataEngTopic), Unchanged)
  const FinanceLeadSpec := Descriptor(FinanceLead, FinanceRefusal, DomainCheck(FinanceTopic), Unchanged)
  const TechLeadSpec := Descriptor(TechLead, TechLeadRefusal, DomainCheck(TechLeadTopic), Unchanged)
  const ProductManagerSpec := Descriptor(ProductManager, ProductRefusal, DomainCheck(ProductTopic), Unchanged)

  /** The post-processing step: a raised loop error passes through
      untouched; a successful result is kept, followed by the note when
      there is one. */
  function Postprocessed(p: Postprocess, loopResult: Outcome<string>): (r: Outcome<string>)
    ensures loopResult.Raised? ==> r == loopResult
    ensures loopResult.Ok? ==> r.Ok? && IsPrefix(loopResult.value, r.value)
    ensures loopResult.Ok? && p.Unchanged? ==> r == loopResult
    ensures loopResult.Ok? && p.AppendNote? ==>
              IsSuffix(p.note, r.value) && |r.value| == |loopResult.value| + |p.note|
  {
    match loopResult
    case Raised(_) => loopResult
    case Ok(text) =>
      match p
      case Unchanged => loopResult
      case AppendNote(note) => Ok(text + note)
  }

  /** One `run(request)` of the specialist `d`: the gate's single
      completion call, then either the refusal path (two messages appended,
      the refusal returned, the loop never invoked) or the relevant path
      (the loop invoked once on the unmodified request, memory untouched by
      the specialist's own code, the loop's outcome post-processed). */
  function SpecialistRun(d: Descriptor, request: string, memory: seq<Message>,
                         gateReply: Outcome<string>, loopResult: Outcome<string>): (run: Run)
    ensures run.completions == [GateRequest(d.domainCheck, request)]
    ensures IsPrefix(memory, run.memory)
    ensures run.loopInputs == (if IsRelevant(gateReply) then [request] else [])
    ensures !IsRelevant(gateReply) ==>
              && run.result == Ok(d.refusal)
              && run.memory == memory + [UserMessage(request), AssistantMessage(d.refusal)]
    ensures IsRelevant(gateReply) ==>
              && run.memory == memory
              && run.result == Postprocessed(d.post, loopResult)
  {
    var call := GateRequest(d.domainCheck, request);
    if IsRelevant(gateReply) then
      Run(Postprocessed(d.post, loopResult), memory, [call], [request])
    else
      var memory' := memory + [UserMessage(request), AssistantMessage(d.refusal)];
      assert memory'[..|memory|] == memory;
      Run(Ok(d.refusal), memory', [call], [])
  }

  /** The part of a `run` that every specialist shares, stated with the
      specialist's own topic sentence and refusal: one gate call on the
      filled template; on "not relevant" the refusal is returned, the loop
      is not invoked and memory gains the request then the refusal; on
      "relevant" the loop gets the unmodified request and the specialist
      leaves memory alone. */
  ghost predicate GatedAs(run: Run, topic: string, refusal: string,
                          request: string, memory: seq<Message>, gateReply: Outcome<string>) {
    && run.completions == [GateRequest(DomainCheck(topic), request)]
    && (!IsRelevant(gateReply) ==>
          && run.result == Ok(refusal)
          && run.loopInputs == []
          && run.memory == memory + [UserMessage(request), AssistantMessage(refusal)])
    && (IsRelevant(gateReply) ==> run.loopInputs == [request] && run.memory == memory)
  }

  /** `HRLeadAgent.run`: gated; a successful answer gets the HR note. */
  function HrLeadRun(request: string, memory: seq<Message>, gateReply: Outcome<string>, loopResult: Outcome<string>): (run: Run)
    ensures GatedAs(run, HrTopic, HrRefusal, request, memory, gateReply)
    ensures IsRelevant(gateReply) && loopResult.Ok? ==> run.result == Ok(loopResult.value + HrNote)
    ensures IsRelevant(gateReply) && loopResult.Raised? ==> run.result == loopResult
  {
    SpecialistRun(HrLeadSpec, request, memory, gateReply, loopResult)
  }

  /** `MarketingLeadAgent.run`: gated; a successful answer gets the
      marketing note. */
  function MarketingLeadRun(request: string, memory: seq<Message>, gateReply: Outcome<string>, loopResult: Outcome<string>): (run: Run)
    ensures GatedAs(run, MarketingTopic, MarketingRefusal, request, memory, gateReply)
    ensures IsRelevant(gateReply) && loopResult.Ok? ==> run.result == Ok(loopResult.value + MarketingNote)
    ensures IsRelevant(gateReply) && loopResult.Raised? ==> run.result == loopResult
  {
    SpecialistRun(MarketingLeadSpec, request, memory, gateReply, loopResult)
  }

  /** `SEOLeadAgent.run`: gated; a successful answer gets the SEO note. */
  function SeoLeadRun(request: string, memory: seq<Message>, gateReply: Outcome<string>, loopResult: Outcome<string>): (run: Run)
    ensures GatedAs(run, SeoTopic, SeoRefusal, request, memory, gateReply)
    ensures IsRelevant(gateReply) && loopResult.Ok? ==> run.result == Ok(loopResult.value + SeoNote)
    ensures IsRelevant(gateReply) && loopResult.Raised? ==> run.result == loopResult
  {
    SpecialistRun(SeoLeadSpec, request, memory, gateReply, loopResult)
  }

  /** `LawLeadAgent.run`: gated; a successful answer gets the legal
      disclaimer. */
  function LawLeadRun(request: string, memory: seq<Message>, gateReply: Outcome<string>, loopResult: Outcome<string>): (run: Run)
    ensures GatedAs(run, LawTopic, LawRefusal, request, memory, gateReply)
    ensures IsRelevant(gateReply) && loopResult.Ok? ==> run.result == Ok(loopResult.value + LawDisclaimer)
    ensures IsRelevant(gateReply) && loopResult.Raised? ==> run.result == loopResult
  {
    SpecialistRun(LawLeadSpec, request, memory, gateReply, loopResult)
  }

  /** `DataEngAgent.run`: gated; the loop's outcome is returned as is. */
  function DataEngRun(request: string, memory: seq<Message>, gateReply: Outcome<string>, loopResult: Outcome<string>): (run: Run)
    ensures GatedAs(run, DataEngTopic, DataEngRefusal, request, memory, gateReply)
    ensures IsRelevant(gateReply) ==> run.result == loopResult
  {
    SpecialistRun(DataEngSpec, request, memory, gateReply, loopResult)
  }

  /** `FinanceLeadAgent.run`: gated; the loop's outcome is returned as is,
      with no disclaimer. */
  function FinanceLeadRun(request: string, memory: seq<Message>, gateReply: Outcome<string>, loopResult: Outcome<string>): (run: Run)
    ensures GatedAs(run, FinanceTopic, FinanceRefusal, request, memory, gateReply)
    ensures IsRelevant(gateReply) ==> run.result == loopResult
  {
    SpecialistRun(FinanceLeadSpec, request, memory, gateReply, loopResult)
  }

  /** `TechLeadAgent.run`: gated; the loop's outcome is returned as is. */
  function TechLeadRun(request: string, memory: seq<Message>, gateReply: Outcome<string>, loopResult: Outcome<string>): (run: Run)
    ensures GatedAs(run, TechLeadTopic, TechLeadRefusal, request, memory, gateReply)
    ensures IsRelevant(gateReply) ==> run.result == loopResult
  {
    SpecialistRun(TechLeadSpec, request, memory, gateReply, loopResult)
  }

  /** `ProductManagerAgent.run`: gated; the loop's outcome is returned as
      is. */
  function ProductManagerRun(request: string, memory: seq<Message>, gateReply: Outcome<string>, loopResult: Outcome<string>): (run: Run)
    ensures GatedAs(run, ProductTopic, ProductRefusal, request, memory, gateReply)
    ensures IsRelevant(gateReply) ==> run.result == loopResult
  {
    SpecialistRun(ProductManagerSpec, request, memory, gateReply, loopResult)
  }

  /** On the refusal path nothing about the loop matters: whatever the
      loop would have produced, the run is the same and the loop is not
      invoked. */
  lemma RefusalSkipsLoop(d: Descriptor, request: string, memory: seq<Message>,
                         gateReply: Outcome<string>, loop1: Outcome<string>, loop2: Outcome<string>)
    requires !IsRelevant(gateReply)
    ensures SpecialistRun(d, request, memory, gateReply, loop1) == SpecialistRun(d, request, memory, gateReply, loop2)
    ensures SpecialistRun(d, request, memory, gateReply, loop1).loopInputs == []
  {
  }

  /** Fail-open end to end: when the gate's completion call raises, the
      request reaches the loop, and the loop's error (if any) reaches the
      caller unchanged. */
  lemma GateFailureRunsLoop(d: Descriptor, request: string, memory: seq<Message>, msg: string, loopResult: Outcome<string>)
    ensures SpecialistRun(d, request, memory, Raised(msg), loopResult).loopInputs == [request]
    ensures loopResult.Raised? ==> SpecialistRun(d, request, memory, Raised(msg), loopResult).result == loopResult
  {
  }

  /** The note is appended by exact concatenation, so taking it off again
      gives back the loop's answer. */
  lemma NoteRoundTrip(d: Descriptor, request: string, memory: seq<Message>,
                                         gateReply: Outcome<string>, answer: string)
    requires d.post.AppendNote? && IsRelevant(gateReply)
    ensures var r := SpecialistRun(d, request, memory, gateReply, Ok(answer)).result;
            && r.Ok?
            && r.value[..|answer|] == answer
            && r.value[|answer|..] == d.post.note
  {
    var r := SpecialistRun(d, request, memory, gateReply, Ok(answer)).result;
    assert r.value == answer + d.post.note;
  }

  /** Finance, as the code stands: a relevant query returns the loop's
      answer with nothing appended, and an irrelevant one returns the
      finance refusal without running the loop. */
  lemma FinanceScenarios(memory: seq<Message>)
    ensures var q := "How do I value a SaaS company using DCF?";
            var answer := "Use discounted cash flow...";
            && FinanceLeadRun(q, memory, Ok("YES"), Ok(answer)).result == Ok(answer)
            && FinanceLeadRun(q, memory, Ok("NO"), Ok(answer)).result == Ok(FinanceRefusal)
            && FinanceLeadRun(q, memory, Ok("NO"), Ok(answer)).loopInputs == []
  {
    PaddedYesPasses();
    OtherRepliesRejected();
  }
}

=== FILE: text.dfy ===
/** The two string operations the relevance gate applies to a model reply,
    Python's `str.strip()` (no argument) and `str.upper()`, restricted to
    ASCII, plus small sequence helpers used across the model. */
module Text {

  /** The ASCII characters Python's `str.isspace()` accepts: tab, line feed,
      vertical tab, form feed, carriage return, the four information
      separators 0x1C..0x1F, and space. */
  predicate IsSpace(c: char): (b: bool)
    ensures b <==> c in {' ', '\t', '\n', '\U{0B}', '\U{0C}', '\r', '\U{1C}', '\U{1D}', '\U{1E}', '\U{1F}'}
  {
    ('\t' <= c <= '\r') || ('\U{1C}' <= c <= ' ')
  }

  /** Every character of `s` from `lo` up to (not including) `hi` is
      whitespace. */
  predicate SpaceBetween(s: string, lo: int, hi: int)
    requires 0 <= lo <= hi <= |s|
  {
    forall k :: lo <= k < hi ==> IsSpace(s[k])
  }

  predicate IsPrefix<T(==)>(p: seq<T>, s: seq<T>) {
    |p| <= |s| && s[..|p|] == p
  }

  predicate IsSuffix<T(==)>(p: seq<T>, s: seq<T>) {
    |p| <= |s| && s[|s| - |p|..] == p
  }

  /** The first index at or after `i` that does not hold whitespace (or
      `|s|` when there is none). */
  function SkipSpace(s: string, i: nat): (k: nat)
    requires i <= |s|
    ensures i <= k <= |s| && SpaceBetween(s, i, k)
    ensures k < |s| ==> !IsSpace(s[k])
    decreases |s| - i
  {
    if i < |s| && IsSpace(s[i]) then SkipSpace(s, i + 1) else i
  }

  /** Scanning down from `j` but not below `lo`, the end of the last
      character that does not hold whitespace (or `lo` when there is
      none). */
  function SkipSpaceBack(s: string, lo: nat, j: nat): (k: nat)
    requires lo <= j <= |s|
    ensures lo <= k <= j && SpaceBetween(s, k, j)
    ensures lo < k ==> !IsSpace(s[k - 1])
  {
    if lo < j && IsSpace(s[j - 1]) then SkipSpaceBack(s, lo, j - 1) else j
  }

  /** Python's `s.strip()` on ASCII text: the slice `s[i..j]` that is left
      after dropping whitespace on both ends. */
  function Strip(s: string): (r: string)
    ensures exists i, j :: 0 <= i <= j <= |s| && StrippedAt(s, r, i, j)
  {
    var i := SkipSpace(s, 0);
    var j := SkipSpaceBack(s, i, |s|);
    assert StrippedAt(s, s[i..j], i, j);
    s[i..j]
  }

  /** `r` is `s[i..j]`, everything outside it is whitespace, and `r` starts
      and ends with a non-space character (or is empty). */
  ghost predicate StrippedAt(s: string, r: string, i: int, j: int)
    requires 0 <= i <= j <= |s|
  {
    && r == s[i..j]
    && SpaceBetween(s, 0, i)
    && SpaceBetween(s, j, |s|)
    && (i < j ==> !IsSpace(s[i]) && !IsSpace(s[j - 1]))
  }

  /** Python's `c.upper()` on ASCII: lower-case letters move to upper case,
      every other character is kept. */
  function UpperChar(c: char): (u: char)
    ensures !('a' <= u <= 'z')
    ensures 'A' <= u <= 'Z' <==> 'a' <= c <= 'z' || 'A' <= c <= 'Z'
    ensures IsSpace(u) <==> IsSpace(c)
    ensures 'a' <= c <= 'z' ==> u as int == c as int - ('a' as int - 'A' as int)
    ensures !('a' <= c <= 'z') ==> u == c
  {
    if 'a' <= c <= 'z' then (c as int - 32) as char else c
  }

  /** Python's `s.upper()` on ASCII text, character by character. */
  function Upper(s: string): (r: string)
    ensures |r| == |s|
    ensures forall k :: 0 <= k < |s| ==> r[k] == UpperChar(s[k])
  {
    if s == [] then [] else [UpperChar(s[0])] + Upper(s[1..])
  }

  /** Stripping is determined by its result: whenever `s` is whitespace
      up to `i`, then a non-empty core from `i` to `j` that neither starts
      nor ends with whitespace, then whitespace, `Strip(s)` is that core. */
  lemma StripOfPadded(s: string, i: nat, j: nat)
    requires i < j <= |s|
    requires SpaceBetween(s, 0, i) && SpaceBetween(s, j, |s|)
    requires !IsSpace(s[i]) && !IsSpace(s[j - 1])
    ensures Strip(s) == s[i..j]
  {
    var i' := SkipSpace(s, 0);
    assert i' <= i;
    assert i' == i;
    var j' := SkipSpaceBack(s, i, |s|);
    assert j <= j';
    assert j' == j;
  }
}

=== FILE: wrappers.dfy ===
/** Failure-carrying values shared by every module of the model.

    Python code either returns a value or raises an exception; the model
    writes the two cases as `Ok(value)` and `Raised(msg)`, where `msg` is
    what `str(e)` of the exception would give. */
module Wrappers {

  datatype Option<+T> = None | Some(value: T) {

    /** The value, or `default` when there is none (`dict.get(k, default)`). */
    function GetOr(default: T): (v: T) {
      match this
      case Some(v) => v
      case None => default
    }
  }

  datatype Outcome<+T> = Ok(value: T) | Raised(msg: string)
}
